=== FILE: README.md ===
# Esport Match Tracker backend: request decisions, modelled in Dafny

This project models the request-decision logic of the Flask backend in
`Backend/app_v1_outdated.py`, with MySQL, bcrypt and Flask removed. It has two parts.

- **Entry handlers** (`/getTable`, `/getEntry`, `/deleteEntry`, and the request check of `/byGame`).
  Each handler is a pure function. Its inputs are the request fields, the session, and whether a
  database connection can be opened. It returns either an error (status and message) or the
  statement the database would be asked to run. A statement has a kind, the spliced table name,
  the spliced key name and the tuple of bound values. `Sql.Render` gives the statement's SQL text,
  exactly as the handlers' f-strings build it. `Sql.Parse` reads the shape back out of that text.
- **Session/auth state machine** (`/register`, `/login`, `/logout`, and the admin gate of
  `/deleteEntry`). The state is the `UserAccount` table, modelled as a map from username to
  `{user_id, password_hash, role}`, plus the next auto-increment id and the optional Flask session
  `{user_id, username, role}`. Each endpoint is a step that returns a reply and the new state.
  `Server.Handle` dispatches one request. `Server.Run` serves a sequence of requests.

Files, one module each: `common.dfy` holds optional values, JSON scalars and Python truthiness.
`text.dfy` holds `str.lower`, identifier scanning and character counting. `registry.dfy` holds
`VALID_TABLE` and `VALID_PRIMARY_KEY`. `sql.dfy` holds statements, their text and its parser.
`auth.dfy` holds register, login and logout. `handlers.dfy` holds the entry handlers.
`server.dfy` holds the dispatcher and the multi-request properties.

What the proofs establish, in short:

- `/deleteEntry` without an admin session answers 403 before a connection is needed.
- A table or key that is not on the allow-list is rejected with 400, and no statement is built.
- The key is checked on its own, so any listed key is accepted with any listed table.
- The SQL text of a built statement names only lower-case, allow-listed identifiers. The text does
  not depend on `id`. It carries one `%s` per bound value.
- Because the input is lower-cased before the membership test, the mixed-case entries
  `matchInfo` and `matchInfo_id` can never be accepted.
- Registration creates only `user` accounts. So for a client that always presents the session the
  server last set, starting from an empty account table, no sequence of requests gets past the
  admin gate. The session is a client-held cookie signed with a fixed key, so a replayed or forged
  cookie falls outside this guarantee (see Left out).

Behaviour of the code that the model keeps:
- `primary_key` is not tied to the table. It comes from the caller and is checked against its own
  list, independently of the table name.
- `id` is not required. The handlers bind whatever `data.get('id')` returns, `None` included.
- `get_table`, `get_entry` and `by_game` open the connection before validating the request. With
  the database down, even an invalid table name gets 500.
- `/deleteEntry` has no row-count reply and no commit (see Left out).
- `get_user_by_username` also returns nothing when its connection fails. So login with the
  database down answers 401 `invalid credentials`. Registration then skips its duplicate check and
  goes on to its own INSERT connection.

## Model

| member | source | states |
|---|---|---|
| Text.Lower | Backend/app_v1_outdated.py:171 | `.lower()` keeps the length, maps every character through the ASCII case mapping and leaves no upper-case letter |
| Text.LowerFixpoint | Backend/app_v1_outdated.py:171 | lower-casing changes nothing exactly when the string is already lower case |
| Text.LowerIdempotent | Backend/app_v1_outdated.py:198 | lower-casing twice equals lower-casing once |
| Registry.MixedCaseEntriesUnreachable | Backend/app_v1_outdated.py:23-29 | `matchInfo` and `matchInfo_id` are on the lists, but no input lower-cases to either of them |
| Registry.AcceptedTables | Backend/app_v1_outdated.py:23-25 | a table name passes iff its lower-cased form is one of the twelve all-lower-case table entries |
| Registry.AcceptedKeys | Backend/app_v1_outdated.py:27-29 | a key passes iff its lower-cased form is one of the twelve all-lower-case key entries |
| Registry.CaseInsensitive | Backend/app_v1_outdated.py:198-205 | two spellings that differ only in ASCII case are both accepted or both rejected |
| Registry.EntriesAreIdentifiers | Backend/app_v1_outdated.py:23-29 | every list entry is a bare SQL identifier (letters, digits, underscores) |
| Registry.ReachableEntriesLowerCase | Backend/app_v1_outdated.py:23-29 | every entry that input can reach is already lower case |
| Registry.ReachableAccepted | Backend/app_v1_outdated.py:23-29 | each reachable entry is its own lower-cased form and passes the check |
| Registry.AccountTableExcluded | Backend/app_v1_outdated.py:23-25 | `UserAccount`, in any spelling, is not an accepted table name |
| Sql.Render | Backend/app_v1_outdated.py:178-246 | the text of a statement opens with its kind's fixed text (`Select * From `, `SELECT * FROM ` or `DELETE FROM `), directly followed by the spliced table name |
| Sql.ParseRender | Backend/app_v1_outdated.py:209 | the SQL text of a well-formed statement determines its kind, table and key: parsing the text gives them back |
| Sql.PlaceholdersMatchParams | Backend/app_v1_outdated.py:178-246 | the text of each of the three statement kinds holds exactly one `%` per bound value: none for the list, one for the keyed get and delete |
| Handlers.GetTable | Backend/app_v1_outdated.py:164-189 | 500 without a connection, then 400 for a name not on the list; otherwise a `Select * From` with no parameters whose table is the lower-cased input, one of the reachable tables |
| Handlers.CheckedStatement | Backend/app_v1_outdated.py:202-209 | table checked before key, each on its own list; on success the statement splices the lower-cased names and binds only `id` |
| Handlers.GetEntry | Backend/app_v1_outdated.py:191-221 | 500 without a connection; then 400 `Invalid table name` for an unlisted table, then 400 `Invalid Primary Key` for an unlisted key; a statement is built iff both pass; it splices the lower-cased table and key, and its one parameter is `id` |
| Handlers.DeleteEntry | Backend/app_v1_outdated.py:223-258 | 403 for any non-admin session, including none; then 500 without a connection; then 400 `Invalid table name`, then 400 `Invalid Primary Key`; a DELETE is built iff the session is admin, a connection exists and both names pass; it splices the lower-cased table and key and binds only `id` |
| Handlers.ByGame | Backend/app_v1_outdated.py:260-270 | 500 without a connection, then 400 for a falsy `game_id`; otherwise `game_id` is the value bound to the queries |
| Handlers.ByGameFalsyValues | Backend/app_v1_outdated.py:268-270 | with a connection, exactly `null`, `false`, `0`, `0.0`, `""`, `[]` and `{}` get 400 `Missing game_id`; every other JSON value proceeds unchanged |
| Handlers.DeleteGateBeforeConnection | Backend/app_v1_outdated.py:226-232 | for a non-admin session the reply is 403 whatever the request body and whether or not a connection can be opened |
| Handlers.UnknownTableRejected | Backend/app_v1_outdated.py:171-240 | with a connection, a table name not on the list gets 400 `Invalid table name` in all three entry handlers |
| Handlers.AnyKeyWithAnyTable | Backend/app_v1_outdated.py:202-209 | every reachable key is accepted with every reachable table, and the resulting text is `SELECT * FROM t WHERE k = %s` |
| Handlers.IdNeverSpliced | Backend/app_v1_outdated.py:200-209 | requests that differ only in `id` get the same SQL text, and `id` is the single bound parameter |
| Handlers.StatementsSpliceOnlyAllowListed | Backend/app_v1_outdated.py:178-246 | the text of every built statement parses back to lower-case allow-listed identifiers and has one placeholder per value |
| Auth.LookupUser | Backend/app_v1_outdated.py:40-61 | an account is found iff a connection exists and the username is stored, and it is the stored account |
| Auth.IsAdmin | Backend/app_v1_outdated.py:227 | an empty session never passes the admin gate, and a session that passes it carries the role `admin` |
| Auth.Register | Backend/app_v1_outdated.py:65-117 | 400 for a missing or empty field; 400 for a taken username when the lookup connection opens; 500 `Database connection failed` when the INSERT connection does not; these leave the state unchanged; 500 with the driver's error when the lookup failed and the INSERT hits a taken username, which leaves the accounts and session unchanged but uses up one auto-increment id; 201 iff both fields are present, the INSERT connection opens and the username is free, and then exactly one new `user` account with the next id is added, other accounts and the session untouched, and the next id advances by one |
| Auth.Login | Backend/app_v1_outdated.py:121-154 | 400 for a missing field; with both fields present, every failure is the same 401 `invalid credentials`; 200 iff the connection opens, the account exists and the password verifies, and then the session is the account's id, username and role; every other outcome leaves the state unchanged; the account table never changes |
| Auth.Logout | Backend/app_v1_outdated.py:158-161 | always 200; the session is empty afterwards; the accounts are unchanged |
| Auth.LoginNoEnumeration | Backend/app_v1_outdated.py:131-139 | an unknown username and a wrong password get the identical 401 `invalid credentials` and leave the state unchanged |
| Auth.LogoutIdempotent | Backend/app_v1_outdated.py:158-161 | logging out twice is the same as logging out once |
| Auth.RegisterThenLogin | Backend/app_v1_outdated.py:80-144 | if the hash verifies against its own password, a new account can log in, with the new id and the non-admin `user` role |
| Auth.RegisterPreservesValid | Backend/app_v1_outdated.py:93-106 | registration keeps ids distinct and below the next id, keeps the session backed by its account, and adds no admin |
| Auth.LoginPreservesValid | Backend/app_v1_outdated.py:142-144 | the session login writes belongs to a stored account and carries that account's id and role |
| Auth.LogoutPreservesValid | Backend/app_v1_outdated.py:160 | clearing the session keeps the store consistent |
| Auth.AdminSessionIsAdminAccount | Backend/app_v1_outdated.py:227 | in a consistent state, a session that passes the admin gate belongs to an admin account |
| Server.Handle | Backend/app_v1_outdated.py:65-270 | only register, login and logout change the state; no route removes or alters an existing account |
| Server.HandlePreservesValid | Backend/app_v1_outdated.py:97 | every route keeps the store consistent and leaves the set of admin accounts unchanged |
| Server.RunPreservesValid | Backend/app_v1_outdated.py:97 | the same over any sequence of requests |
| Server.AdminOnlyFromStartingStore | Backend/app_v1_outdated.py:97-144 | after any sequence of requests, an admin session belongs to an account that was an admin at the start |
| Server.NoDeleteFromEmptyStore | Backend/app_v1_outdated.py:97-228 | from an empty account table, `/deleteEntry` answers 403 after any sequence of requests |
| Server.DeleteAfterLogout | Backend/app_v1_outdated.py:158-228 | logout answers 200, and a `/deleteEntry` right after it answers 403 |
| Server.FreshAccountCannotDelete | Backend/app_v1_outdated.py:97-228 | register then login succeeds, yet the following `/deleteEntry` answers 403 |

## Left out

- Statement execution: the MySQL connection, cursors, `fetchall`, `commit`, `rollback` and `finally` cleanup are not modelled. A connection is a `dbUp` flag. The `UserAccount` table is a map.
- Failures after a connection is open: the SELECT inside `get_user_by_username`, which has no `except` and so ends in Flask's own 500 for both `register` and `login`; a failing INSERT in `register` (500 after rollback); and failing queries in the entry handlers (500).
- Auth.Login: its statuses 200, 400 and 401 cover the designed replies only; a failing lookup query ends in a 500 the model does not produce. The model only covers connection availability, plus the INSERT of a taken username, which the table's unique username constraint rejects.
- Handlers.DeleteEntry: `Proceed` with a DELETE statement means the statement is sent, not that a row is deleted. `delete_entry` never calls `commit()`, and mysql-connector does not autocommit by default, so the DELETE is discarded when the connection closes. A DELETE returns no rows, so `if entry:` never holds and the route has no success reply.
- bcrypt is a `Hasher` pair of functions. `gensalt` is a salt passed in with the request. The one property assumed of it is `Auth.Sound`: a hash verifies against its own password.
- Flask glue: JSON parsing, `jsonify`, CORS and dotenv. The session holds only the three keys login writes.
- Server.NoDeleteFromEmptyStore: holds only for a client that presents the last session the server set. Flask keeps the session in a client-side cookie signed with the fixed `secret_key` `'super_secret_key'`, so a client can replay an older cookie or forge `{'role': 'admin'}`, and the role check accepts it. Cookie signing is not modelled.
- Server.AdminOnlyFromStartingStore: the same assumption; a forged cookie can carry the admin role for any account.
- Server.DeleteAfterLogout: the same assumption; a cookie saved before logout can be replayed after it.
- Server.FreshAccountCannotDelete: the same assumption; the new account could present a forged admin cookie instead.
- JSON `NaN` and `Infinity`, which Python's parser accepts and treats as true, are not values of the model.
- Crash paths: `.lower()` on a missing `table_name` or `primary_key` raises. Entry inputs are modelled as present strings.
- `get_entry` and `delete_entry` return `None` when the result is empty. Query results are not modelled, so the DELETE statement stands for the reply.
- The malformed error set literal in `get_table`'s `except` branch.
- Non-string JSON values for `username` and `password`. A field is either absent or a string.
- The four join queries of `by_game`: they are SQL over a schema this model does not include. Only the connection check and the `game_id` check are modelled.
- `Backend/app.py`: a single fixed `SELECT * FROM player` with no branching.
- Insert, update and the domain read queries: they are not in this file.
- Username lookup compares exactly. MySQL's default case-insensitive collation is not modelled.
- Concurrent requests and several clients: one client's session over a sequence of requests.
- Text.Lower: models Python's `str.lower` on ASCII only. The only non-ASCII character whose lower case is ASCII is the Kelvin sign, which lowers to `k`. No list entry contains `k`, so the set of accepted names is the same.

=== FILE: auth.dfy ===
/** The session/auth state machine behind `/register`, `/login` and
    `/logout`. The `UserAccount` table becomes a map from username to
    account, the Flask session an optional record, and bcrypt an opaque
    hash/verify pair. Each endpoint is a step from a state to a reply and a
    new state. */
module Auth {
  import opened Common

  const UserRole := "user"
  const AdminRole := "admin"

  const MsgMissing := "username and password required"
  const MsgExists := "username already exists"
  const MsgInvalid := "invalid credentials"
  const MsgDbDown := "Database connection failed"

  /** A `UserAccount` row, keyed by its username in the store. */
  datatype Account = Account(userId: nat, passwordHash: string, role: string)

  /** What `login` writes into the Flask session. */
  datatype Session = Session(userId: nat, username: string, role: string)

  /** The account table, the next auto-increment id, and this client's session. */
  datatype State = State(users: map<string, Account>, nextId: nat, session: Option<Session>)

  /** The JSON body of a reply. */
  datatype Body =
    | Error(message: string)
    | Registered(userId: nat, username: string, role: string)
    | LoggedIn(userId: nat, username: string, role: string)
    | LoggedOut
    | DriverError  // `str(e)` of a database error; its text is not modelled

  datatype Reply = Reply(status: int, body: Body)

  datatype Step = Step(reply: Reply, state: State)

  /** bcrypt, seen from outside: `hash(password, salt)` is `hashpw` with a
      salt from `gensalt`, `verify(password, hash)` is `checkpw`. */
  datatype Hasher = Hasher(hash: (string, string) -> string, verify: (string, string) -> bool)

  /** A hash verifies against the password it was computed from. */
  ghost predicate Sound(h: Hasher)
  {
    forall password, salt :: h.verify(password, h.hash(password, salt))
  }

  /** `session.get('role') == 'admin'`: `get` on an empty session gives
      `None`, which never equals `'admin'`. */
  predicate IsAdmin(session: Option<Session>)
    ensures session.None? ==> !IsAdmin(session)
    ensures IsAdmin(session) ==> session.value.role == AdminRole
  {
    session.Some? && session.value.role == AdminRole
  }

  /** `get_user_by_username`: the account, or nothing when there is none or
      when no connection could be opened. */
  function LookupUser(st: State, username: string, dbUp: bool): (r: Option<Account>)
    ensures r.Some? <==> dbUp && username in st.users
    ensures r.Some? ==> r.value == st.users[username]
  {
    if dbUp && username in st.users then Some(st.users[username]) else None
  }

  /** The store is consistent: ids are below the next auto-increment value
      and distinct, and a session belongs to a stored account and carries
      that account's id and role. */
  ghost predicate Valid(st: State)
  {
    && (forall u :: u in st.users ==> st.users[u].userId < st.nextId)
    && (forall u, v :: u in st.users && v in st.users && u != v ==> st.users[u].userId != st.users[v].userId)
    && SessionBacked(st)
  }

  ghost predicate SessionBacked(st: State)
  {
    st.session.Some? ==>
      && st.session.value.username in st.users
      && st.users[st.session.value.username].userId == st.session.value.userId
      && st.users[st.session.value.username].role == st.session.value.role
  }

  /** The usernames whose accounts carry the admin role. */
  function Admins(users: map<string, Account>): set<string>
  {
    set u | u in users && users[u].role == AdminRole
  }

  /** `POST /register`. It opens two connections: one inside
      `get_user_by_username` for the duplicate check (`lookupUp`) and one
      for the INSERT (`insertUp`). When the first fails the duplicate check
      is skipped; the INSERT of a taken username then breaks the table's
      unique username, the driver's error comes back as a 500, and the
      auto-increment value the INSERT drew is lost. */
  function Register(st: State, username: Option<string>, password: Option<string>,
                    salt: string, h: Hasher, lookupUp: bool, insertUp: bool): (s: Step)
    ensures !Present(username) || !Present(password) ==>
              s == Step(Reply(400, Error(MsgMissing)), st)
    ensures Present(username) && Present(password) && lookupUp && username.value in st.users ==>
              s == Step(Reply(400, Error(MsgExists)), st)
    ensures Present(username) && Present(password) && !(lookupUp && username.value in st.users)
            && !insertUp ==>
              s == Step(Reply(500, Error(MsgDbDown)), st)
    ensures Present(username) && Present(password) && !lookupUp && insertUp
            && username.value in st.users ==>
              s == Step(Reply(500, DriverError), st.(nextId := st.nextId + 1))
    ensures s.reply.status == 201 <==>
              Present(username) && Present(password) && insertUp && username.value !in st.users
    ensures s.reply.status != 201 ==> s.state.users == st.users
    ensures s.reply.status != 201 && s.reply.body != DriverError ==> s.state == st
    ensures s.reply.status == 201 ==>
              && s.state.users.Keys == st.users.Keys + {username.value}
              && |s.state.users| == |st.users| + 1
              && (forall u :: u in st.users ==> s.state.users[u] == st.users[u])
              && s.state.users[username.value] == Account(st.nextId, h.hash(password.value, salt), UserRole)
              && s.reply.body == Registered(st.nextId, username.value, UserRole)
              && s.state.nextId == st.nextId + 1
    ensures s.state.session == st.session
  {
    if !Present(username) || !Present(password) then
      Step(Reply(400, Error(MsgMissing)), st)
    else if LookupUser(st, username.value, lookupUp).Some? then
      Step(Reply(400, Error(MsgExists)), st)
    else if !insertUp then
      Step(Reply(500, Error(MsgDbDown)), st)
    else if username.value in st.users then
      // the failed INSERT still consumes an auto-increment value
      Step(Reply(500, DriverError), st.(nextId := st.nextId + 1))
    else
      var u := username.value;
      var account := Account(st.nextId, h.hash(password.value, salt), UserRole);
      Step(Reply(201, Registered(st.nextId, u, UserRole)),
           st.(users := st.users[u := account], nextId := st.nextId + 1))
  }

  /** `POST /login`. */
  function Login(st: State, username: Option<string>, password: Option<string>,
                 h: Hasher, dbUp: bool): (s: Step)
    ensures !Present(username) || !Present(password) ==>
              s == Step(Reply(400, Error(MsgMissing)), st)
    ensures s.reply.status == 200 <==>
              && Present(username) && Present(password) && dbUp && username.value in st.users
              && h.verify(password.value, st.users[username.value].passwordHash)
    ensures s.reply.status != 200 ==> s.state == st
    ensures Present(username) && Present(password) && s.reply.status != 200 ==>
              s.reply == Reply(401, Error(MsgInvalid))
    ensures s.reply.status == 200 ==>
              var a := st.users[username.value];
              && s.state == st.(session := Some(Session(a.userId, username.value, a.role)))
              && s.reply.body == LoggedIn(a.userId, username.value, a.role)
    ensures s.reply.status in {200, 400, 401}
    ensures s.state.users == st.users && s.state.nextId == st.nextId
  {
    if !Present(username) || !Present(password) then
      Step(Reply(400, Error(MsgMissing)), st)
    else
      match LookupUser(st, username.value, dbUp)
      case None => Step(Reply(401, Error(MsgInvalid)), st)
      case Some(a) =>
        if !h.verify(password.value, a.passwordHash) then
          Step(Reply(401, Error(MsgInvalid)), st)
        else
          var session := Session(a.userId, username.value, a.role);
          Step(Reply(200, LoggedIn(a.userId, username.value, a.role)),
               st.(session := Some(session)))
  }

  /** `POST /logout`. */
  function Logout(st: State): (s: Step)
    ensures s.reply.status == 200
    ensures s.state.session.None? && !IsAdmin(s.state.session)
    ensures s.state.users == st.users && s.state.nextId == st.nextId
  {
    Step(Reply(200, LoggedOut), st.(session := None))
  }

  /** An unknown username and a wrong password for a known one get the same
      reply and leave the state alone, so a reply does not reveal whether
      an account exists. */
  lemma LoginNoEnumeration(st: State, unknown: string, known: string,
                           p1: string, p2: string, h: Hasher, dbUp: bool)
    requires unknown != "" && unknown !in st.users
    requires known != "" && p1 != "" && p2 != ""
    requires known in st.users && !h.verify(p2, st.users[known].passwordHash)
    ensures Login(st, Some(unknown), Some(p1), h, dbUp).reply
         == Login(st, Some(known), Some(p2), h, dbUp).reply
         == Reply(401, Error(MsgInvalid))
    ensures Login(st, Some(unknown), Some(p1), h, dbUp).state == st
    ensures Login(st, Some(known), Some(p2), h, dbUp).state == st
  {
  }

  /** Logging out twice is logging out once. */
  lemma LogoutIdempotent(st: State)
    ensures Logout(Logout(st).state) == Logout(st)
  {
  }

  /** A freshly registered account can log in with its password, and the
      session it gets carries the new id and the `user` role. */
  lemma RegisterThenLogin(st: State, u: string, p: string, salt: string, h: Hasher)
    requires Sound(h)
    requires u != "" && p != "" && u !in st.users
    ensures var r := Register(st, Some(u), Some(p), salt, h, true, true);
            var l := Login(r.state, Some(u), Some(p), h, true);
            && r.reply.status == 201
            && l.reply.status == 200
            && l.state.session == Some(Session(st.nextId, u, UserRole))
            && !IsAdmin(l.state.session)
  {
    var r := Register(st, Some(u), Some(p), salt, h, true, true);
    assert r.state.users[u].passwordHash == h.hash(p, salt);
    assert h.verify(p, h.hash(p, salt));
  }

  lemma RegisterPreservesValid(st: State, username: Option<string>, password: Option<string>,
                               salt: string, h: Hasher, lookupUp: bool, insertUp: bool)
    requires Valid(st)
    ensures Valid(Register(st, username, password, salt, h, lookupUp, insertUp).state)
    ensures Admins(Register(st, username, password, salt, h, lookupUp, insertUp).state.users) == Admins(st.users)
  {
    var s := Register(st, username, password, salt, h, lookupUp, insertUp);
    if s.reply.status == 201 {
      var u := username.value;
      assert s.state.users == st.users[u := s.state.users[u]];
      assert SessionBacked(s.state) by {
        if st.session.Some? {
          assert st.session.value.username != u;
        }
      }
    }
  }

  lemma LoginPreservesValid(st: State, username: Option<string>, password: Option<string>,
                            h: Hasher, dbUp: bool)
    requires Valid(st)
    ensures Valid(Login(st, username, password, h, dbUp).state)
  {
  }

  lemma LogoutPreservesValid(st: State)
    requires Valid(st)
    ensures Valid(Logout(st).state)
  {
  }

  /** In a consistent state the admin gate only opens for a session whose
      stored account is an admin account. */
  lemma AdminSessionIsAdminAccount(st: State)
    requires Valid(st)
    requires IsAdmin(st.session)
    ensures st.session.value.username in Admins(st.users)
  {
  }
}

=== FILE: common.dfy ===
/** Small shared vocabulary: an optional value and the scalar values a JSON
    request body can carry, with Python's notion of truthiness on them. */
module Common {

  /** The conventional Some/None datatype, used for absent request fields
      and for the empty server-side session. */
  datatype Option<+T> = None | Some(value: T)

  /** A JSON value as the request parser hands it to a handler: numbers
      become `int` or `float`, arrays lists, objects dicts. A field that is
      absent from the body reads as `Null`, because the handlers fetch it
      with `dict.get`. */
  datatype Value =
    | Null
    | Bool(b: bool)
    | Int(i: int)
    | Float(r: real)
    | Str(s: string)
    | Arr(items: seq<Value>)
    | Obj(fields: map<string, Value>)

  /** Python truthiness: `None`, `False`, `0`, `0.0`, `""`, `[]` and `{}`
      are false, every other value is true. */
  predicate Truthy(v: Value)
  {
    match v
    case Null => false
    case Bool(b) => b
    case Int(i) => i != 0
    case Float(r) => r != 0.0
    case Str(s) => s != ""
    case Arr(items) => items != []
    case Obj(fields) => fields != map[]
  }

  /** Truthiness of an optional text field (`not field` in the handlers). */
  predicate Present(field: Option<string>)
  {
    field.Some? && field.value != ""
  }
}

=== FILE: handlers.dfy ===
/** The entry-management endpoints `/getTable`, `/getEntry` and
    `/deleteEntry`, and the request check of `/byGame`. Each handler is a
    pure decision: an error reply, or the statement (or bound value) the
    database would be asked to run. Opening the connection is the
    `dbUp` input; running the statement is not modelled. */
module Handlers {
  import opened Common
  import opened Text
  import opened Registry
  import opened Sql
  import opened Auth

  const MsgBadTable := "Invalid table name"
  const MsgBadKey := "Invalid Primary Key"
  const MsgNotAdmin := "admin access required"
  const MsgNoGameId := "Missing game_id"

  /** Either an error reply, or what the handler goes on to execute. */
  datatype Outcome<+T> = Fail(status: int, message: string) | Proceed(value: T)

  /** The body of `/getEntry` and `/deleteEntry`. A missing `id` reads as
      `Null` and is bound as it is. */
  datatype EntryRequest = EntryRequest(tableName: string, primaryKey: string, id: Value)

  /** `POST /getTable`: connection first, then the table check. */
  function GetTable(tableName: string, dbUp: bool): (r: Outcome<Statement>)
    ensures !dbUp ==> r == Fail(500, MsgDbDown)
    ensures dbUp && !TableAllowed(tableName) ==> r == Fail(400, MsgBadTable)
    ensures r.Proceed? <==> dbUp && TableAllowed(tableName)
    ensures r.Proceed? ==>
              && WellFormed(r.value)
              && r.value.kind == ListAll
              && r.value.params == []
              && r.value.table in ReachableTables
              && r.value.table == Lower(tableName)
  {
    if !dbUp then Fail(500, MsgDbDown)
    else
      var t := Lower(tableName);
      if t !in ValidTables then Fail(400, MsgBadTable)
      else
        AcceptedTables(tableName);
        EntriesAreIdentifiers();
        LowerIdempotent(tableName);
        Proceed(Statement(ListAll, t, None, []))
  }

  /** The identifier checks shared by `/getEntry` and `/deleteEntry`, in
      the order the handler checks them: table first, then key, each on its own. */
  function CheckedStatement(kind: Kind, req: EntryRequest): (r: Outcome<Statement>)
    requires kind != ListAll
    ensures !TableAllowed(req.tableName) ==> r == Fail(400, MsgBadTable)
    ensures TableAllowed(req.tableName) && !KeyAllowed(req.primaryKey) ==> r == Fail(400, MsgBadKey)
    ensures r.Proceed? <==> TableAllowed(req.tableName) && KeyAllowed(req.primaryKey)
    ensures r.Proceed? ==>
              && WellFormed(r.value)
              && r.value.kind == kind
              && r.value.table in ReachableTables
              && r.value.pk.value in ReachableKeys
              && r.value.table == Lower(req.tableName)
              && r.value.pk == Some(Lower(req.primaryKey))
              && r.value.params == [req.id]
  {
    var t := Lower(req.tableName);
    var k := Lower(req.primaryKey);
    if t !in ValidTables then Fail(400, MsgBadTable)
    else if k !in ValidPrimaryKeys then Fail(400, MsgBadKey)
    else
      AcceptedTables(req.tableName);
      AcceptedKeys(req.primaryKey);
      EntriesAreIdentifiers();
      LowerIdempotent(req.tableName);
      LowerIdempotent(req.primaryKey);
      Proceed(Statement(kind, t, Some(k), [req.id]))
  }

  /** `POST /getEntry`: connection first, then the identifier checks. */
  function GetEntry(req: EntryRequest, dbUp: bool): (r: Outcome<Statement>)
    ensures !dbUp ==> r == Fail(500, MsgDbDown)
    ensures dbUp && !TableAllowed(req.tableName) ==> r == Fail(400, MsgBadTable)
    ensures dbUp && TableAllowed(req.tableName) && !KeyAllowed(req.primaryKey) ==> r == Fail(400, MsgBadKey)
    ensures r.Proceed? <==> dbUp && TableAllowed(req.tableName) && KeyAllowed(req.primaryKey)
    ensures r.Proceed? ==> r.value.kind == FetchByKey && WellFormed(r.value) && r.value.params == [req.id]
    ensures r.Proceed? ==>
              r.value.table == Lower(req.tableName) && r.value.pk == Some(Lower(req.primaryKey))
  {
    if !dbUp then Fail(500, MsgDbDown) else CheckedStatement(FetchByKey, req)
  }

  /** `DELETE /deleteEntry`: the role check, then the connection, then the
      identifier checks. */
  function DeleteEntry(req: EntryRequest, session: Option<Session>, dbUp: bool): (r: Outcome<Statement>)
    ensures !IsAdmin(session) ==> r == Fail(403, MsgNotAdmin)
    ensures IsAdmin(session) && !dbUp ==> r == Fail(500, MsgDbDown)
    ensures IsAdmin(session) && dbUp && !TableAllowed(req.tableName) ==> r == Fail(400, MsgBadTable)
    ensures IsAdmin(session) && dbUp && TableAllowed(req.tableName) && !KeyAllowed(req.primaryKey) ==>
              r == Fail(400, MsgBadKey)
    ensures r.Proceed? <==>
              IsAdmin(session) && dbUp && TableAllowed(req.tableName) && KeyAllowed(req.primaryKey)
    ensures r.Proceed? ==> r.value.kind == DeleteByKey && WellFormed(r.value) && r.value.params == [req.id]
    ensures r.Proceed? ==>
              r.value.table == Lower(req.tableName) && r.value.pk == Some(Lower(req.primaryKey))
  {
    if !IsAdmin(session) then Fail(403, MsgNotAdmin)
    else if !dbUp then Fail(500, MsgDbDown)
    else CheckedStatement(DeleteByKey, req)
  }

  /** `POST /byGame`, up to the queries: connection first, then the
      truthiness check on `game_id`; on success `game_id` is the one value
      bound to each of the four fixed queries. */
  function ByGame(gameId: Value, dbUp: bool): (r: Outcome<Value>)
    ensures !dbUp ==> r == Fail(500, MsgDbDown)
    ensures dbUp && !Truthy(gameId) ==> r == Fail(400, MsgNoGameId)
    ensures r.Proceed? <==> dbUp && Truthy(gameId)
    ensures r.Proceed? ==> r.value == gameId
  {
    if !dbUp then Fail(500, MsgDbDown)
    else if !Truthy(gameId) then Fail(400, MsgNoGameId)
    else Proceed(gameId)
  }

  /** The JSON values Python treats as false. */
  const FalsyValues: set<Value> :=
    {Null, Bool(false), Int(0), Float(0.0), Str(""), Arr([]), Obj(map[])}

  /** `by_game` tests `game_id` with Python truthiness: exactly the falsy
      JSON values `null`, `false`, `0`, `0.0`, `""`, `[]` and `{}` get a 400,
      and any other value, `1.5` or `[0]` among them, goes on to the queries. */
  lemma ByGameFalsyValues(v: Value)
    ensures v in FalsyValues ==> ByGame(v, true) == Fail(400, MsgNoGameId)
    ensures v !in FalsyValues ==> ByGame(v, true) == Proceed(v)
  {
  }

  /** The admin gate comes first: without an admin session the reply is 403
      whatever the request and whether or not a connection could be had,
      so no connection is needed and no statement is built. */
  lemma DeleteGateBeforeConnection(req1: EntryRequest, req2: EntryRequest,
                                   session: Option<Session>, up1: bool, up2: bool)
    requires !IsAdmin(session)
    ensures DeleteEntry(req1, session, up1) == DeleteEntry(req2, session, up2) == Fail(403, MsgNotAdmin)
  {
  }

  /** With a connection, an unknown table is a 400 and builds nothing, in
      all three entry handlers (behind the admin gate for delete). */
  lemma UnknownTableRejected(req: EntryRequest, session: Option<Session>)
    requires !TableAllowed(req.tableName)
    ensures GetTable(req.tableName, true) == Fail(400, MsgBadTable)
    ensures GetEntry(req, true) == Fail(400, MsgBadTable)
    ensures IsAdmin(session) ==> DeleteEntry(req, session, true) == Fail(400, MsgBadTable)
  {
  }

  /** The key check does not consult the table: every reachable key is
      accepted with every reachable table, whether or not the key is a
      column of that table (`player` with `game_id`, say). */
  lemma AnyKeyWithAnyTable(t: string, k: string, id: Value)
    requires t in ReachableTables && k in ReachableKeys
    ensures GetEntry(EntryRequest(t, k, id), true) == Proceed(Statement(FetchByKey, t, Some(k), [id]))
    ensures Render(GetEntry(EntryRequest(t, k, id), true).value)
         == "SELECT * FROM " + t + " WHERE " + k + " = %s"
  {
    ReachableAccepted(t, k);
  }

  /** Values never reach the SQL text: two requests that differ only in
      `id` produce the same text, and the id is the single bound parameter. */
  lemma IdNeverSpliced(t: string, k: string, id1: Value, id2: Value,
                       session: Option<Session>, dbUp: bool)
    ensures var r1 := GetEntry(EntryRequest(t, k, id1), dbUp);
            var r2 := GetEntry(EntryRequest(t, k, id2), dbUp);
            r1.Proceed? == r2.Proceed? &&
            (r1.Proceed? ==> Render(r1.value) == Render(r2.value) && r1.value.params == [id1])
    ensures var r1 := DeleteEntry(EntryRequest(t, k, id1), session, dbUp);
            var r2 := DeleteEntry(EntryRequest(t, k, id2), session, dbUp);
            r1.Proceed? == r2.Proceed? &&
            (r1.Proceed? ==> Render(r1.value) == Render(r2.value) && r1.value.params == [id1])
  {
  }

  /** The text of every statement a handler builds names only allow-listed,
      lower-case identifiers (read back from the text itself), and has one
      placeholder per bound value. */
  lemma StatementsSpliceOnlyAllowListed(req: EntryRequest, session: Option<Session>, dbUp: bool)
    ensures var r := GetTable(req.tableName, dbUp);
            r.Proceed? ==> SplicesOnlyAllowListed(r.value)
    ensures var r := GetEntry(req, dbUp);
            r.Proceed? ==> SplicesOnlyAllowListed(r.value)
    ensures var r := DeleteEntry(req, session, dbUp);
            r.Proceed? ==> SplicesOnlyAllowListed(r.value)
  {
    var r1 := GetTable(req.tableName, dbUp);
    if r1.Proceed? { TextFacts(r1.value); }
    var r2 := GetEntry(req, dbUp);
    if r2.Proceed? { TextFacts(r2.value); }
    var r3 := DeleteEntry(req, session, dbUp);
    if r3.Proceed? { TextFacts(r3.value); }
  }

  /** What the SQL text of a statement reveals: its table and key, both on
      the allow-lists and in lower case, and as many placeholders as values. */
  ghost predicate SplicesOnlyAllowListed(st: Statement)
  {
    var shape := Parse(Render(st));
    && shape.Some?
    && shape.value.table in ReachableTables
    && IsLowerCase(shape.value.table)
    && (shape.value.pk.Some? ==> shape.value.pk.value in ReachableKeys && IsLowerCase(shape.value.pk.value))
    && Count('%', Render(st)) == |st.params|
  }

  lemma TextFacts(st: Statement)
    requires WellFormed(st)
    requires st.table in ReachableTables
    requires st.pk.Some? ==> st.pk.value in ReachableKeys
    ensures SplicesOnlyAllowListed(st)
  {
    ParseRender(st);
    PlaceholdersMatchParams(st);
    ReachableEntriesLowerCase();
  }
}

=== FILE: registry.dfy ===
/** The two static allow-lists the entry handlers check caller-supplied
    identifiers against, and what lower-casing the input does to them. */
module Registry {
  import opened Text

  /** `VALID_TABLE`, in list order. */
  const ValidTables: seq<string> :=
    ["game", "tournament", "matchInfo", "team", "player",
     "place", "venue", "prizepool", "sponsor", "commentator",
     "organizer", "manager", "coach"]

  /** `VALID_PRIMARY_KEY`, in list order. */
  const ValidPrimaryKeys: seq<string> :=
    ["game_id", "tournament_id", "matchInfo_id", "team_id", "player_id",
     "place_id", "venue_id", "prizepool_id", "sponsor_id", "commentator_id",
     "organizer_id", "manager_id", "coach_id"]

  /** The caller's table name passes the check: `name.lower() in VALID_TABLE`. */
  predicate TableAllowed(name: string)
  {
    Lower(name) in ValidTables
  }

  /** The caller's key passes the check: `key.lower() in VALID_PRIMARY_KEY`. */
  predicate KeyAllowed(key: string)
  {
    Lower(key) in ValidPrimaryKeys
  }

  /** The entries a lower-cased input can actually match. */
  const ReachableTables: set<string> :=
    {"game", "tournament", "team", "player", "place", "venue", "prizepool",
     "sponsor", "commentator", "organizer", "manager", "coach"}

  const ReachableKeys: set<string> :=
    {"game_id", "tournament_id", "team_id", "player_id", "place_id", "venue_id",
     "prizepool_id", "sponsor_id", "commentator_id", "organizer_id", "manager_id",
     "coach_id"}

  /** The mixed-case entries are listed but dead: no input, whatever its case,
      lower-cases to `matchInfo` or to `matchInfo_id`. */
  lemma MixedCaseEntriesUnreachable(name: string)
    ensures "matchInfo" in ValidTables && "matchInfo_id" in ValidPrimaryKeys
    ensures Lower(name) != "matchInfo" && Lower(name) != "matchInfo_id"
  {
    LowerMissesUpper(name, "matchInfo", 5);
    LowerMissesUpper(name, "matchInfo_id", 5);
  }

  /** Exactly the lower-case entries are accepted: a table name passes iff its
      lower-cased form is one of the twelve all-lower-case table entries. */
  lemma AcceptedTables(name: string)
    ensures TableAllowed(name) <==> Lower(name) in ReachableTables
  {
    MixedCaseEntriesUnreachable(name);
  }

  /** Exactly the lower-case keys are accepted. */
  lemma AcceptedKeys(key: string)
    ensures KeyAllowed(key) <==> Lower(key) in ReachableKeys
  {
    MixedCaseEntriesUnreachable(key);
  }

  /** The checks ignore ASCII case: two spellings that differ only in the
      case of their letters are both accepted or both rejected. */
  lemma CaseInsensitive(a: string, b: string)
    requires |a| == |b| && forall i :: 0 <= i < |a| ==> LowerChar(a[i]) == LowerChar(b[i])
    ensures TableAllowed(a) <==> TableAllowed(b)
    ensures KeyAllowed(a) <==> KeyAllowed(b)
  {
    assert Lower(a) == Lower(b);
  }

  /** Every entry is a bare SQL identifier, so splicing one into a
      statement cannot change the statement's structure. */
  lemma EntriesAreIdentifiers()
    ensures forall t :: t in ValidTables ==> IsIdentifier(t)
    ensures forall k :: k in ValidPrimaryKeys ==> IsIdentifier(k)
  {
    forall t | t in ValidTables
      ensures IsIdentifier(t)
    {
      IdentifierFromAlphabet(t);
    }
    forall k | k in ValidPrimaryKeys
      ensures IsIdentifier(k)
    {
      IdentifierFromAlphabet(k);
    }
  }

  /** Every reachable entry is already in lower case. */
  lemma ReachableEntriesLowerCase()
    ensures forall t :: t in ReachableTables ==> IsLowerCase(t)
    ensures forall k :: k in ReachableKeys ==> IsLowerCase(k)
  {
    forall t | t in ReachableTables
      ensures IsLowerCase(t)
    {
      LowerCaseFromAlphabet(t);
    }
    forall k | k in ReachableKeys
      ensures IsLowerCase(k)
    {
      LowerCaseFromAlphabet(k);
    }
  }

  lemma LowerCaseFromAlphabet(s: string)
    requires forall c :: c in s ==> 'a' <= c <= 'z' || c == '_'
    ensures IsLowerCase(s)
  {
    assert forall i :: 0 <= i < |s| ==> s[i] in s;
  }

  /** A reachable entry is accepted under its own spelling. */
  lemma ReachableAccepted(t: string, k: string)
    requires t in ReachableTables && k in ReachableKeys
    ensures Lower(t) == t && Lower(k) == k
    ensures TableAllowed(t) && KeyAllowed(k)
  {
    ReachableEntriesLowerCase();
    LowerFixpoint(t);
    LowerFixpoint(k);
  }

  /** A non-empty string of lower-case letters and underscores is an identifier. */
  lemma IdentifierFromAlphabet(s: string)
    requires |s| > 0
    requires forall c :: c in s ==> 'a' <= c <= 'z' || c == '_' || 'A' <= c <= 'Z'
    ensures IsIdentifier(s)
  {
    assert forall i :: 0 <= i < |s| ==> s[i] in s;
  }

  /** The account table is not on the allow-list under any spelling, so no
      entry handler can name it. */
  lemma AccountTableExcluded(name: string)
    requires Lower(name) == "useraccount"
    ensures !TableAllowed(name)
  {
  }

}

=== FILE: server.dfy ===
/** The application as a whole: one dispatcher over all modelled routes,
    and what holds over any sequence of requests from one client. */
module Server {
  import opened Common
  import opened Auth
  import opened Sql
  import opened Handlers

  /** A request body per route. `salt` stands for the value `gensalt`
      would return during that registration. */
  datatype Request =
    | RegisterReq(username: Option<string>, password: Option<string>, salt: string)
    | LoginReq(username: Option<string>, password: Option<string>)
    | LogoutReq
    | GetTableReq(tableName: string)
    | GetEntryReq(entry: EntryRequest)
    | DeleteEntryReq(entry: EntryRequest)
    | ByGameReq(gameId: Value)

  /** A request together with whether its database connections can be
      opened: `dbUp` for the first connection every route opens (for
      register, the one inside the duplicate check), `insertUp` for the
      second one that only register opens, for its INSERT. */
  datatype Call = Call(req: Request, dbUp: bool, insertUp: bool)

  datatype Response =
    | AuthReply(reply: Reply)
    | EntryReply(outcome: Outcome<Statement>)
    | GameReply(game: Outcome<Value>)

  datatype Result = Result(response: Response, state: State)

  /** Serves one request. */
  function Handle(st: State, h: Hasher, c: Call): (r: Result)
    ensures !c.req.RegisterReq? && !c.req.LoginReq? && !c.req.LogoutReq? ==> r.state == st
    ensures st.users.Keys <= r.state.users.Keys
    ensures forall u :: u in st.users ==> r.state.users[u] == st.users[u]
  {
    match c.req
    case RegisterReq(u, p, salt) =>
      var s := Register(st, u, p, salt, h, c.dbUp, c.insertUp);
      Result(AuthReply(s.reply), s.state)
    case LoginReq(u, p) =>
      var s := Login(st, u, p, h, c.dbUp);
      Result(AuthReply(s.reply), s.state)
    case LogoutReq =>
      var s := Logout(st);
      Result(AuthReply(s.reply), s.state)
    case GetTableReq(t) => Result(EntryReply(GetTable(t, c.dbUp)), st)
    case GetEntryReq(e) => Result(EntryReply(GetEntry(e, c.dbUp)), st)
    case DeleteEntryReq(e) => Result(EntryReply(DeleteEntry(e, st.session, c.dbUp)), st)
    case ByGameReq(g) => Result(GameReply(ByGame(g, c.dbUp)), st)
  }

  /** Serves a sequence of requests in order, returning the final state. */
  function Run(st: State, h: Hasher, calls: seq<Call>): (end: State)
    ensures st.users.Keys <= end.users.Keys
    ensures forall u :: u in st.users ==> end.users[u] == st.users[u]
    decreases |calls|
  {
    if calls == [] then st else Run(Handle(st, h, calls[0]).state, h, calls[1..])
  }

  /** Every request keeps the store consistent and leaves the set of admin
      accounts as it was: no route grants the admin role. */
  lemma HandlePreservesValid(st: State, h: Hasher, c: Call)
    requires Valid(st)
    ensures Valid(Handle(st, h, c).state)
    ensures Admins(Handle(st, h, c).state.users) == Admins(st.users)
  {
    match c.req
    case RegisterReq(u, p, salt) => RegisterPreservesValid(st, u, p, salt, h, c.dbUp, c.insertUp);
    case LoginReq(u, p) => LoginPreservesValid(st, u, p, h, c.dbUp);
    case LogoutReq => LogoutPreservesValid(st);
    case _ =>
  }

  lemma {:induction false} RunPreservesValid(st: State, h: Hasher, calls: seq<Call>)
    requires Valid(st)
    ensures Valid(Run(st, h, calls))
    ensures Admins(Run(st, h, calls).users) == Admins(st.users)
    decreases |calls|
  {
    if calls != [] {
      HandlePreservesValid(st, h, calls[0]);
      RunPreservesValid(Handle(st, h, calls[0]).state, h, calls[1..]);
    }
  }

  /** After any sequence of requests, a session that passes the admin gate
      belongs to an account that was already an admin account at the start. */
  lemma AdminOnlyFromStartingStore(st: State, h: Hasher, calls: seq<Call>)
    requires Valid(st)
    requires IsAdmin(Run(st, h, calls).session)
    ensures Run(st, h, calls).session.value.username in Admins(st.users)
  {
    RunPreservesValid(st, h, calls);
    AdminSessionIsAdminAccount(Run(st, h, calls));
  }

  /** The empty application: no accounts, no session. */
  const Initial := State(map[], 1, None)

  /** Starting from an empty account table, no sequence of requests ever
      lets `/deleteEntry` past the admin gate: registration only creates
      `user` accounts, so an admin must be put in the table by other means. */
  lemma NoDeleteFromEmptyStore(h: Hasher, calls: seq<Call>, e: EntryRequest, dbUp: bool, insertUp: bool)
    ensures Handle(Run(Initial, h, calls), h, Call(DeleteEntryReq(e), dbUp, insertUp)).response
         == EntryReply(Fail(403, MsgNotAdmin))
  {
    var end := Run(Initial, h, calls);
    RunPreservesValid(Initial, h, calls);
    assert Admins(Initial.users) == {};
    if end.session.Some? {
      assert end.session.value.username !in Admins(end.users);
    }
  }

  /** After `/logout`, `/deleteEntry` is refused whatever came before. */
  lemma DeleteAfterLogout(st: State, h: Hasher, up1: bool, in1: bool, e: EntryRequest, up2: bool, in2: bool)
    ensures var out := Handle(st, h, Call(LogoutReq, up1, in1));
            && out.response == AuthReply(Reply(200, LoggedOut))
            && Handle(out.state, h, Call(DeleteEntryReq(e), up2, in2)).response
               == EntryReply(Fail(403, MsgNotAdmin))
  {
  }

  /** A client that registers and logs in with the new account is still
      refused by `/deleteEntry`. */
  lemma FreshAccountCannotDelete(st: State, h: Hasher, u: string, p: string, salt: string,
                                 e: EntryRequest, dbUp: bool, insertUp: bool)
    requires Sound(h)
    requires u != "" && p != "" && u !in st.users
    ensures var s1 := Handle(st, h, Call(RegisterReq(Some(u), Some(p), salt), true, true)).state;
            var s2 := Handle(s1, h, Call(LoginReq(Some(u), Some(p)), true, true));
            && s2.response.reply.status == 200
            && Handle(s2.state, h, Call(DeleteEntryReq(e), dbUp, insertUp)).response
               == EntryReply(Fail(403, MsgNotAdmin))
  {
    RegisterThenLogin(st, u, p, salt, h);
  }
}

=== FILE: sql.dfy ===
/** The statements the entry handlers hand to the database driver: the SQL
    text, which the handlers build with an f-string, and the tuple of values
    the driver binds to its `%s` placeholders. */
module Sql {
  import opened Common
  import opened Text

  /** The three statement shapes: `getTable`, `getEntry`, `deleteEntry`. */
  datatype Kind = ListAll | FetchByKey | DeleteByKey

  /** A statement as passed to `cursor.execute`: the identifiers spliced
      into the text, and the bound parameters. `pk` is absent for `ListAll`. */
  datatype Statement = Statement(kind: Kind, table: string, pk: Option<string>, params: seq<Value>)

  /** What the SQL text alone determines: the shape and the identifiers. */
  datatype Shape = Shape(kind: Kind, table: string, pk: Option<string>)

  function ShapeOf(st: Statement): Shape
  {
    Shape(st.kind, st.table, st.pk)
  }

  /** The spliced identifiers are bare identifiers, and the number of bound
      values matches the shape. */
  predicate WellFormed(st: Statement)
  {
    && IsIdentifier(st.table)
    && match st.kind
       case ListAll => st.pk.None? && st.params == []
       case _ => st.pk.Some? && IsIdentifier(st.pk.value) && |st.params| == 1
  }

  const ListPrefix := "Select * From "
  const ListSuffix := ";"
  const FetchPrefix := "SELECT * FROM "
  const DeletePrefix := "DELETE FROM "
  const WhereInfix := " WHERE "
  const KeySuffix := " = %s"

  function KeyText(pk: Option<string>): string
  {
    match pk
    case Some(k) => k
    case None => ""
  }

  /** The fixed text a statement of each kind opens with. */
  function Prefix(kind: Kind): string
  {
    match kind
    case ListAll => ListPrefix
    case FetchByKey => FetchPrefix
    case DeleteByKey => DeletePrefix
  }

  /** The f-string text of a statement (the handlers' `cursor.execute` first
      argument). Only the table and key names are inserted; the table name
      follows the kind's opening text directly. */
  function Render(st: Statement): (sql: string)
    ensures Prefix(st.kind) <= sql
    ensures |Prefix(st.kind)| + |st.table| <= |sql|
    ensures sql[|Prefix(st.kind)|..|Prefix(st.kind)| + |st.table|] == st.table
  {
    match st.kind
    case ListAll => ListPrefix + st.table + ListSuffix
    case FetchByKey => FetchPrefix + st.table + WhereInfix + KeyText(st.pk) + KeySuffix
    case DeleteByKey => DeletePrefix + st.table + WhereInfix + KeyText(st.pk) + KeySuffix
  }

  /** Reads the shape back out of SQL text; `None` for text of any other form. */
  function Parse(sql: string): Option<Shape>
  {
    if ListPrefix <= sql then
      var rest := sql[|ListPrefix|..];
      var t := IdentPrefix(rest);
      if |t| > 0 && rest[|t|..] == ListSuffix then Some(Shape(ListAll, t, None)) else None
    else if FetchPrefix <= sql then ParseKeyed(FetchByKey, sql[|FetchPrefix|..])
    else if DeletePrefix <= sql then ParseKeyed(DeleteByKey, sql[|DeletePrefix|..])
    else None
  }

  /** Reads `<table> WHERE <key> = %s`. */
  function ParseKeyed(kind: Kind, rest: string): Option<Shape>
  {
    var t := IdentPrefix(rest);
    var after := rest[|t|..];
    if |t| > 0 && WhereInfix <= after then
      var rest2 := after[|WhereInfix|..];
      var k := IdentPrefix(rest2);
      if |k| > 0 && rest2[|k|..] == KeySuffix then Some(Shape(kind, t, Some(k))) else None
    else None
  }

  /** The text of a well-formed statement determines its shape exactly:
      parsing the rendered text gives back the kind, table and key. Hence
      two statements with the same text splice the same identifiers. */
  lemma ParseRender(st: Statement)
    requires WellFormed(st)
    ensures Parse(Render(st)) == Some(ShapeOf(st))
  {
    var t := st.table;
    match st.kind
    case ListAll =>
      var sql := ListPrefix + t + ListSuffix;
      assert sql[|ListPrefix|..] == t + ListSuffix;
      IdentPrefixOfJoin(t, ListSuffix);
      assert (t + ListSuffix)[|t|..] == ListSuffix;
    case FetchByKey =>
      var sql := FetchPrefix + (t + WhereInfix + KeyText(st.pk) + KeySuffix);
      assert Render(st) == sql;
      assert !(ListPrefix <= sql) by { assert sql[1] != ListPrefix[1]; }
      assert sql[|FetchPrefix|..] == t + WhereInfix + KeyText(st.pk) + KeySuffix;
      KeyedRoundTrip(FetchByKey, t, st.pk.value);
    case DeleteByKey =>
      var sql := DeletePrefix + (t + WhereInfix + KeyText(st.pk) + KeySuffix);
      assert Render(st) == sql;
      assert !(ListPrefix <= sql) by { assert sql[0] != ListPrefix[0]; }
      assert !(FetchPrefix <= sql) by { assert sql[0] != FetchPrefix[0]; }
      assert sql[|DeletePrefix|..] == t + WhereInfix + KeyText(st.pk) + KeySuffix;
      KeyedRoundTrip(DeleteByKey, t, st.pk.value);
  }

  lemma KeyedRoundTrip(kind: Kind, t: string, k: string)
    requires IsIdentifier(t) && IsIdentifier(k)
    ensures ParseKeyed(kind, t + WhereInfix + k + KeySuffix) == Some(Shape(kind, t, Some(k)))
  {
    var rest := t + (WhereInfix + k + KeySuffix);
    assert t + WhereInfix + k + KeySuffix == rest;
    IdentPrefixOfJoin(t, WhereInfix + k + KeySuffix);
    assert rest[|t|..] == WhereInfix + (k + KeySuffix);
    assert (WhereInfix + (k + KeySuffix))[|WhereInfix|..] == k + KeySuffix;
    IdentPrefixOfJoin(k, KeySuffix);
    assert (k + KeySuffix)[|k|..] == KeySuffix;
  }

  /** The text of a well-formed statement holds exactly one `%s` placeholder
      per bound value: every value travels as a parameter. */
  lemma PlaceholdersMatchParams(st: Statement)
    requires WellFormed(st)
    ensures Count('%', Render(st)) == |st.params|
  {
    match st.kind
    case ListAll =>
      ListPlaceholders(st.table);
    case FetchByKey =>
      KeyedPlaceholders(FetchPrefix, st.table, st.pk.value);
    case DeleteByKey =>
      KeyedPlaceholders(DeletePrefix, st.table, st.pk.value);
  }

  lemma ListPlaceholders(t: string)
    requires IsIdentifier(t)
    ensures Count('%', ListPrefix + t + ListSuffix) == 0
  {
    CountOfIdentifier(t);
    CountAbsent('%', ListPrefix);
    CountAbsent('%', ListSuffix);
    CountJoin('%', ListPrefix, t);
    CountJoin('%', ListPrefix + t, ListSuffix);
  }

  lemma KeyedPlaceholders(prefix: string, t: string, k: string)
    requires '%' !in prefix
    requires IsIdentifier(t) && IsIdentifier(k)
    ensures Count('%', prefix + t + WhereInfix + k + KeySuffix) == 1
  {
    CountOfIdentifier(t);
    CountOfIdentifier(k);
    CountAbsent('%', prefix);
    CountAbsent('%', WhereInfix);
    CountJoin('%', prefix, t);
    CountJoin('%', prefix + t, WhereInfix);
    CountJoin('%', prefix + t + WhereInfix, k);
    CountJoin('%', prefix + t + WhereInfix + k, KeySuffix);
    assert KeySuffix == " = " + "%s";
    CountJoin('%', " = ", "%s");
    CountAbsent('%', " = ");
  }

  lemma CountOfIdentifier(s: string)
    requires IsIdentifier(s)
    ensures Count('%', s) == 0
  {
    CountInIdentifier('%', s);
  }

  lemma {:induction false} CountAbsent(c: char, s: string)
    requires c !in s
    ensures Count(c, s) == 0
  {
    if s != [] {
      assert s[0] in s;
      assert forall x :: x in s[1..] ==> x in s;
      CountAbsent(c, s[1..]);
    }
  }
}

=== FILE: text.dfy ===
/** Character-level helpers: Python's `str.lower` on the ASCII range, the
    characters an SQL identifier is made of, and character counting. */
module Text {

  predicate IsUpper(c: char)
  {
    'A' <= c <= 'Z'
  }

  /** `str.lower` on one character; only ASCII letters change. */
  function LowerChar(c: char): (d: char)
    ensures !IsUpper(d)
    ensures !IsUpper(c) ==> d == c
    ensures IsUpper(c) ==> d as int == c as int + 32
  {
    if IsUpper(c) then (c as int + 32) as char else c
  }

  /** No upper-case ASCII letter anywhere in `s`. */
  predicate IsLowerCase(s: string)
  {
    forall i :: 0 <= i < |s| ==> !IsUpper(s[i])
  }

  /** `s.lower()`. */
  function Lower(s: string): (r: string)
    ensures |r| == |s|
    ensures forall i :: 0 <= i < |s| ==> r[i] == LowerChar(s[i])
    ensures IsLowerCase(r)
  {
    if s == [] then [] else [LowerChar(s[0])] + Lower(s[1..])
  }

  /** Lower-casing leaves a string alone exactly when it is already lower case. */
  lemma LowerFixpoint(s: string)
    ensures Lower(s) == s <==> IsLowerCase(s)
  {
    if IsLowerCase(s) {
      assert forall i :: 0 <= i < |s| ==> Lower(s)[i] == s[i];
    }
  }

  /** Lower-casing twice is lower-casing once. */
  lemma LowerIdempotent(s: string)
    ensures Lower(Lower(s)) == Lower(s)
  {
    LowerFixpoint(Lower(s));
  }

  /** A lower-cased string never equals a string holding an upper-case letter. */
  lemma LowerMissesUpper(s: string, t: string, k: nat)
    requires k < |t| && IsUpper(t[k])
    ensures Lower(s) != t
  {
    if |Lower(s)| == |t| {
      assert !IsUpper(Lower(s)[k]);
    }
  }

  predicate IsIdentChar(c: char)
  {
    'a' <= c <= 'z' || 'A' <= c <= 'Z' || '0' <= c <= '9' || c == '_'
  }

  /** A bare SQL identifier: non-empty, letters, digits and underscores only. */
  predicate IsIdentifier(s: string)
  {
    |s| > 0 && forall i :: 0 <= i < |s| ==> IsIdentChar(s[i])
  }

  /** The longest prefix of `s` made of identifier characters. */
  function IdentPrefix(s: string): (r: string)
    ensures |r| <= |s| && r == s[..|r|]
    ensures forall i :: 0 <= i < |r| ==> IsIdentChar(r[i])
    ensures |r| < |s| ==> !IsIdentChar(s[|r|])
  {
    if s == [] || !IsIdentChar(s[0]) then [] else [s[0]] + IdentPrefix(s[1..])
  }

  /** Scanning an identifier followed by a delimiter gives back the identifier. */
  lemma {:induction false} IdentPrefixOfJoin(t: string, rest: string)
    requires IsIdentifier(t)
    requires rest == [] || !IsIdentChar(rest[0])
    ensures IdentPrefix(t + rest) == t
  {
    assert (t + rest)[0] == t[0];
    assert (t + rest)[1..] == t[1..] + rest;
    if |t| == 1 {
      assert t[1..] + rest == rest;
    } else {
      IdentPrefixOfJoin(t[1..], rest);
    }
  }

  /** Number of occurrences of `c` in `s`. */
  function Count(c: char, s: string): nat
  {
    if s == [] then 0 else (if s[0] == c then 1 else 0) + Count(c, s[1..])
  }

  lemma {:induction false} CountJoin(c: char, a: string, b: string)
    ensures Count(c, a + b) == Count(c, a) + Count(c, b)
  {
    if a == [] {
      assert a + b == b;
    } else {
      assert (a + b)[1..] == a[1..] + b;
      CountJoin(c, a[1..], b);
    }
  }

  /** An identifier holds no character outside the identifier alphabet. */
  lemma {:induction false} CountInIdentifier(c: char, s: string)
    requires forall i :: 0 <= i < |s| ==> IsIdentChar(s[i])
    requires !IsIdentChar(c)
    ensures Count(c, s) == 0
  {
    if s != [] {
      CountInIdentifier(c, s[1..]);
    }
  }
}
